=== FILE: README.md ===
# Water-meter firmware core, modelled in Dafny

The firmware runs on an ESP32 water-metering node. A flow sensor raises an
interrupt on every pulse. The interrupt handler increments a 32-bit pulse
counter. A 1 Hz loop drains that counter atomically and converts the pulses
to liters with the calibration factor K = 7.5. It adds the liters to the
cumulative "hidrômetro" total and saves the total to non-volatile storage
(NVS) under the key `"hidrometro"`. It then computes the flow rate in liters
per day, and an RGB LED shows that rate in one of four buckets. A button
held low at the start of a cycle resets the total and the stored value.

The model has three modules, one per source file:

- `FlowSensor` (`flow_sensor.dfy`) covers the interrupt increment with
  32-bit wrap-around, the atomic drain, and the conversion of pulses to
  liters. `Run` replays any interleaving of interrupts and drains. The
  conservation lemmas are stated over `Run`.
- `Storage` (`storage.dfy`) covers the `nvs_ready` flag and the handle,
  kept over an abstract NVS partition. The partition keeps a `written` map,
  which reads see, and a `committed` map, which a successful commit
  guarantees to survive power loss. `nvs_commit` copies the first into the
  second. The NVS interface does not say whether a write that was never
  committed survives, so a power cycle (`Storage.Restart`) takes the set of
  keys whose uncommitted write reached the medium as a parameter. The
  durability lemmas hold for every such set. Each NVS call takes the
  `esp_err_t` it returns as a parameter. `EspOk` means the flash medium
  behaved, and the result then follows from the partition's contents: a
  healthy read of a missing key still reports `NotFound`.
- `Meter` (`meter.dfy`) covers `update_led`, the loop body as a pure step
  function, the boot sequence of `app_main`, and the behaviour over many
  cycles. Liters and rates are `real`. Timestamps are `int` microseconds.
  The clock readings, the button level and the NVS results are inputs of
  each cycle. Pulses that arrive between cycles enter through
  `FlowSensor.AddEdges`.

The LED is driven as three pin levels, and the model states those levels
only. include/config.h:12 declares the RGB LED common-anode. On such an LED
a pin driven to 1 switches its channel off, so which colours are lit is not
part of the model.

`storage_init` returns early on a flash-init or erase failure, and then
does not assign `nvs_ready`. Only a failing `nvs_open` clears the flag. The
model follows this code exactly. The claim that any failure leaves the store
not ready is proved from the power-on state, where the flag is false
(`Storage.InitFromPowerOn`).

## Model

| member | source | states |
|---|---|---|
| FlowSensor.Edge | lib/sensor_flow/flow_sensor.c:14-19 | one edge adds exactly 1 to the `uint32_t` counter, modulo 2^32: the counter goes from 2^32-1 to 0 |
| FlowSensor.AddEdges | lib/sensor_flow/flow_sensor.c:11-19 | k edges with no drain in between leave `(pulses + k) mod 2^32`, and exactly `pulses + k` when that stays below 2^32 |
| FlowSensor.Drain | lib/sensor_flow/flow_sensor.c:39-44 | the drain returns the count from before the drain and leaves the counter at 0 |
| FlowSensor.PulsesToLiters | lib/sensor_flow/flow_sensor.c:46-48 | the liters times K*60 give back the pulse count; the result is never negative, and it is zero exactly for zero pulses |
| FlowSensor.OneLiterIs450Pulses | include/config.h:6 | with K = 7.5, 450 pulses are exactly 1.0 L, and 450 is the only count that gives 1.0 L |
| FlowSensor.LitersAdditive | lib/sensor_flow/flow_sensor.c:48 | liters(a+b) = liters(a) + liters(b) |
| FlowSensor.LitersMonotone | lib/sensor_flow/flow_sensor.c:48 | a <= b exactly when liters(a) <= liters(b) |
| FlowSensor.GetIncrement | lib/sensor_flow/flow_sensor.c:38-51 | the counter is cleared on every call; a non-positive interval returns 0 and drops the pulses; otherwise the liters are the drained pulses divided by K*60 |
| FlowSensor.Run | lib/sensor_flow/flow_sensor.c:14-44 | replays any interleaving of atomic interrupt increments and atomic drains: each drain contributes exactly one count below 2^32, and a sequence ending with a drain leaves the counter clear |
| FlowSensor.ConservationModulo | lib/sensor_flow/flow_sensor.c:14-44 | for any interleaving of interrupts and drains, drained pulses plus pending pulses equal the starting count plus the edges, modulo 2^32 |
| FlowSensor.Conservation | lib/sensor_flow/flow_sensor.c:14-44 | when no drain window reaches 2^32 edges, the same equation holds exactly: no pulse is lost or counted twice |
| Storage.PowerOn | lib/storage/storage.c:8-9 | at power-on the store is not ready and the handle is 0; the partition holds the committed contents, except that keys whose uncommitted write reached the medium keep it; a fully committed partition comes back unchanged |
| Storage.Init | lib/storage/storage.c:11-36 | NO_FREE_PAGES or NEW_VERSION_FOUND triggers an erase and a re-init; a failed erase returns with nothing changed; the store becomes ready only if flash init and `nvs_open` both succeed; a failed open clears the flag |
| Storage.InitFromPowerOn | lib/storage/storage.c:11-36 | from power-on, the store is ready exactly when the flash comes up and the namespace opens; a failed erase leaves the power-on state |
| Storage.Deinit | lib/storage/storage.c:38-46 | when ready, the store is closed with handle 0; when not ready, nothing changes |
| Storage.DeinitIdempotent | lib/storage/storage.c:38-46 | deinit twice is the same as deinit once |
| Storage.GetBlob | lib/storage/storage.c:57 | a healthy read finds the key exactly when it is written; otherwise it returns an error code other than OK |
| Storage.Load | lib/storage/storage.c:48-73 | returns 0 when not ready; returns a non-zero value only when ready, the read succeeds and the blob has the size of a float and holds that value |
| Storage.LoadDefaults | lib/storage/storage.c:54-72 | a missing key, a size mismatch and any read error each give 0.0 |
| Storage.SetBlob | lib/storage/storage.c:82 | a set writes a float-sized blob under the key, keeps the other keys, and leaves the committed contents alone |
| Storage.Commit | lib/storage/storage.c:88 | a commit makes the committed contents equal to the written ones |
| Storage.Save | lib/storage/storage.c:75-92 | no-op when not ready; a failed set means no commit and no change; a successful set makes a load return the value; a failed commit leaves the committed contents unchanged |
| Storage.Reset | lib/storage/storage.c:94-114 | no-op when not ready or when the set fails; otherwise the store holds 0.0; a successful commit makes the committed contents equal the written ones, and a failed commit leaves them as they were |
| Storage.ResetIsSaveZero | lib/storage/storage.c:100-112 | reset has the same effect as save(0.0) for every pair of call results |
| Storage.SaveIdempotent | lib/storage/storage.c:75-92 | saving a value twice with both calls succeeding is the same as saving it once |
| Storage.SaveLoadRoundTrip | lib/storage/storage.c:82-86 | after a save whose set succeeds, a healthy load in the same session returns the saved value |
| Storage.SaveSurvivesRestart | lib/storage/storage.c:82-91 | after a save whose set and commit both succeed, the next boot with a clean flash init loads the saved value, whichever uncommitted writes reached the medium |
| Storage.FailedCommitRestartsOldOrNew | lib/storage/storage.c:82-91 | after a save whose set succeeded and whose commit failed, a power cycle leaves either the new value, if that write reached the medium, or exactly what the store would hold without the save |
| Meter.Classify | src/main.c:27-45 | reference buckets: >= 5000, [3000, 5000), [1000, 3000), < 1000 L/day, each lower bound included |
| Meter.SteadyPins | src/main.c:27-44 | each steady bucket drives exactly one of the three LED pins high |
| Meter.UpdateLed | src/main.c:24-55 | the three upper buckets drive only the green, only the blue or only the red pin high and keep the blink state; below 1000 the red pin toggles, and the toggle time becomes `now`, only when more than 500000 us have passed since the last toggle; otherwise nothing changes |
| Meter.ThresholdBoundaries | src/main.c:27-45 | the rates 5000, 3000 and 1000 drive the green, blue and red pin high respectively; 999.999 behaves exactly like no flow |
| Meter.BlinkReturns | src/main.c:45-53 | at a low rate, two toggles more than 500 ms apart bring `led_state` back to its earlier value and leave the toggle time at the second `now`; the red pin alone is then driven to that level, which need not be its level before the toggles when a steady bucket set the pins |
| Meter.SampleInterval | src/main.c:100-103 | the interval is (now - last_time)/10^6 s when the clock advanced and 1.0 s otherwise, so it is always positive |
| Meter.RateLitersPerDay | src/main.c:109-110 | rate times interval equals liters times 86400; the rate is non-negative for a non-negative volume |
| Meter.OneLiterPerSecond | src/main.c:109-110 | 1 L over 1 s gives 86400 L/day |
| Meter.StoreAfterButton | src/main.c:92-94 | with the button up, or a store not ready, or a failed reset set, the store is untouched; otherwise it holds 0.0, and the reset's own commit result decides whether that zero is committed |
| Meter.Step | src/main.c:88-113 | the interval is the clamped clock interval from `last_time` to `now`, and `last_time` becomes `now`; the rate is the liters-per-day rate of this increment over that interval; the whole pending count is drained and converted; total' = (0 if the button reads 0, else total) + increment; when the store is ready and the save's set succeeds, the store then holds exactly total'; a failed set leaves the store as the reset check left it, and a failed commit leaves its committed contents as they were; what the reset check leaves is decided by the reset's own set and commit results; the rate is non-negative; the LED pins follow this cycle's rate |
| Meter.StepIncrementIsPendingPulses | src/main.c:105 | each cycle adds exactly liters(pending pulses): the clamped interval never takes the pulse-discarding branch |
| Meter.ResetCycle | src/main.c:92-107 | after a reset cycle the total equals the increment; the stored value is 0.0 when the following save fails, and the increment when it succeeds |
| Meter.ResetCycleFailures | src/main.c:92-107 | in a reset cycle whose save's set fails, a failed reset set leaves the store unchanged, a failed reset commit leaves the committed contents unchanged, and a fully successful reset commits 0.0 |
| Meter.Boot | src/main.c:62-86 | at boot the counter is clear, `last_time` is t0, and the store is ready exactly when init succeeds; a non-zero total is the value the store holds; a failed read or an erased partition boots with 0.0; a clean boot with a successful read loads the well-formed value the power cycle left, including an uncommitted write that reached the medium |
| Meter.BootResumesSavedTotal | src/main.c:85-107 | the total of a cycle whose save fully succeeded is the total the meter boots with after a power loss, whichever uncommitted writes reached the medium |
| Meter.Loop | src/main.c:88-113 | replays the `while (1)` loop with sensor edges arriving before each cycle: the store's readiness never changes, and after at least one cycle the counter is clear and `last_time` is the last cycle's timestamp |
| Meter.TotalNeverDecreases | src/main.c:105-106 | across cycles with the button not pressed, the total never decreases |
| Meter.NoLoss | src/main.c:88-107 | between resets and without counter overflow, the final total plus the pending liters equals the starting total plus the liters of every pulse since |

## Left out

- GPIO configuration, installing the interrupt service, `esp_timer_get_time`, `vTaskDelay` and `gpio_get_level` are hardware and RTOS calls. The timestamps and the button level are inputs of each cycle.
- The spinlocks (`portENTER_CRITICAL*`) are not modelled. The interrupt and the drain are two atomic transitions with no interleaving inside them.
- IEEE-754 single-precision rounding is not modelled. Liters, intervals and rates are exact `real` values, and the `int64_t` timestamp difference is an unbounded `int`.
- The 500 ms blocking delay after a reset (src/main.c:97) is a sleep, not a state, and is not modelled.
- The telemetry line (`localtime_r`, `printf`), all `ESP_LOG*` output, `get_gps_position` and the SIM7600 stub have no metering logic and are not modelled.
- The `"storage"` namespace name and the handle value come from `nvs_open`. The handle is an input of `Storage.Init`, and the namespace holds only the one key the firmware uses.
- The LED pin levels before the first `update_led` call are not set by the firmware; `Meter.LedAtBoot` takes them as all low.
- FlowSensor.Conservation: exact only when no drain window reaches 2^32 edges; FlowSensor.ConservationModulo covers every case modulo 2^32.
- Meter.NoLoss: assumes no counter overflow between two cycles, which would need more than 2^32 pulses in about one second.

=== FILE: flow_sensor.dfy ===
/**
 The flow-sensor pulse counter: a 32-bit unsigned counter that the edge
 interrupt increments and the 1 Hz loop drains (reads and zeroes in one
 critical section), and the conversion of drained pulses to liters.

 The interrupt and the drain are modelled as two atomic transitions on one
 `Counter` value; `Run` replays any interleaving of them.
 */
module FlowSensor {

  /** Calibration factor K: pulse frequency in Hz per liter-per-minute of flow. */
  const K: real := 7.5

  /** Pulses emitted per liter: K pulses per second at 1 L/min, over 60 seconds. */
  const PulsesPerLiter: real := K * 60.0

  /** 2^32: the counter is a `uint32_t`. */
  const Modulus: nat := 0x1_0000_0000

  type U32 = x: nat | x < Modulus

  /** The shared pulse counter (`pulse_count`). */
  datatype Counter = Counter(pulses: U32)

  /** The counter as it is at boot and right after every drain. */
  const Cleared: Counter := Counter(0)

  /** One rising edge: the interrupt handler's increment, wrapping at 2^32. */
  function Edge(c: Counter): (c': Counter)
    ensures c.pulses < Modulus - 1 ==> c'.pulses == c.pulses + 1
    ensures c.pulses == Modulus - 1 ==> c'.pulses == 0
    ensures (c'.pulses - c.pulses) % Modulus == 1
  {
    Counter((c.pulses + 1) % Modulus)
  }

  /** `k` consecutive edges with no drain in between. */
  function AddEdges(c: Counter, k: nat): (c': Counter)
    ensures c'.pulses == (c.pulses + k) % Modulus
    ensures c.pulses + k < Modulus ==> c'.pulses == c.pulses + k
    decreases k
  {
    if k == 0 then c else Edge(AddEdges(c, k - 1))
  }

  /** What a drain hands back: the pulses read and the counter left behind. */
  datatype Drained = Drained(pulses: U32, counter: Counter)

  /** The atomic read-and-clear of the counter. */
  function Drain(c: Counter): (r: Drained)
    ensures r.pulses == c.pulses
    ensures r.counter == Cleared
  {
    Drained(c.pulses, Cleared)
  }

  /** Liters corresponding to a number of pulses: pulses / (K * 60). */
  function PulsesToLiters(pulses: nat): (liters: real)
    ensures liters >= 0.0
    ensures liters * PulsesPerLiter == pulses as real
    ensures liters == 0.0 <==> pulses == 0
  {
    pulses as real / PulsesPerLiter
  }

  /** 450 pulses are exactly one liter, and one liter is exactly 450 pulses. */
  lemma OneLiterIs450Pulses()
    ensures PulsesToLiters(450) == 1.0
    ensures forall p: nat :: PulsesToLiters(p) == 1.0 <==> p == 450
  {
  }

  /** The conversion distributes over sums of pulse counts. */
  lemma LitersAdditive(a: nat, b: nat)
    ensures PulsesToLiters(a + b) == PulsesToLiters(a) + PulsesToLiters(b)
  {
  }

  /** More pulses never give fewer liters. */
  lemma LitersMonotone(a: nat, b: nat)
    ensures a <= b <==> PulsesToLiters(a) <= PulsesToLiters(b)
  {
  }

  /** The result of `flow_sensor_get_increment`: liters and the counter left behind. */
  datatype Increment = Increment(liters: real, counter: Counter)

  /**
   Drain the counter, then convert. The drain happens before the interval
   is inspected, so with a non-positive interval the pulses are discarded.
   */
  function GetIncrement(c: Counter, interval: real): (r: Increment)
    ensures r.counter == Cleared
    ensures r.liters >= 0.0
    ensures interval <= 0.0 ==> r.liters == 0.0
    ensures interval > 0.0 ==> r.liters * PulsesPerLiter == c.pulses as real
  {
    var d := Drain(c);
    if interval <= 0.0 then Increment(0.0, d.counter)
    else Increment(PulsesToLiters(d.pulses), d.counter)
  }

  /** The two atomic transitions on the counter. */
  datatype Event = Pulse | Read

  /** What an event sequence produces: every drained count, in order, and the final counter. */
  datatype Trace = Trace(drained: seq<nat>, counter: Counter)

  /**
   Replays a sequence of interrupts and drains, starting from `c`: each
   drain contributes exactly one count, each count fits the 32-bit counter,
   and a sequence that ends with a drain leaves the counter clear.
   */
  function Run(c: Counter, events: seq<Event>): (t: Trace)
    ensures |t.drained| == ReadCount(events)
    ensures forall i :: 0 <= i < |t.drained| ==> t.drained[i] < Modulus
    ensures events != [] && events[|events| - 1] == Read ==> t.counter == Cleared
    decreases |events|
  {
    if events == [] then Trace([], c)
    else match events[0]
      case Pulse => Run(Edge(c), events[1..])
      case Read =>
        var d := Drain(c);
        var t := Run(d.counter, events[1..]);
        Trace([d.pulses] + t.drained, t.counter)
  }

  /** Number of sensor edges in an event sequence. */
  function EdgeCount(events: seq<Event>): nat
    decreases |events|
  {
    if events == [] then 0
    else (if events[0] == Pulse then 1 else 0) + EdgeCount(events[1..])
  }

  /** Number of drains in an event sequence. */
  function ReadCount(events: seq<Event>): nat
    decreases |events|
  {
    if events == [] then 0
    else (if events[0] == Read then 1 else 0) + ReadCount(events[1..])
  }

  /** Sum of a sequence of drained counts. */
  function Sum(s: seq<nat>): nat
    decreases |s|
  {
    if s == [] then 0 else s[0] + Sum(s[1..])
  }

  /** No edge in the sequence finds the counter at its maximum: no drain window overflows. */
  predicate NoWrap(c: Counter, events: seq<Event>)
    decreases |events|
  {
    events == [] ||
    match events[0]
    case Pulse => c.pulses + 1 < Modulus && NoWrap(Edge(c), events[1..])
    case Read => NoWrap(Cleared, events[1..])
  }

  /** Reducing the left operand first does not change a sum modulo 2^32. */
  lemma ModAddLeft(a: int, b: int)
    ensures (a % Modulus + b) % Modulus == (a + b) % Modulus
  {
  }

  /**
   Pulse conservation modulo 2^32: drained pulses plus pending pulses equal
   the pulses pending at the start plus the edges seen, for any interleaving.
   */
  lemma {:induction false} ConservationModulo(c: Counter, events: seq<Event>)
    ensures (Sum(Run(c, events).drained) + Run(c, events).counter.pulses) % Modulus
         == (c.pulses + EdgeCount(events)) % Modulus
    decreases |events|
  {
    if events != [] {
      var rest := events[1..];
      match events[0]
      case Pulse =>
        ConservationModulo(Edge(c), rest);
        ModAddLeft(c.pulses + 1, EdgeCount(rest));
      case Read =>
        ConservationModulo(Cleared, rest);
        var t := Run(Cleared, rest);
        ModAddLeft(Sum(t.drained) + t.counter.pulses, c.pulses);
        ModAddLeft(EdgeCount(rest), c.pulses);
    }
  }

  /**
   Exact pulse conservation: when no drain window reaches 2^32 edges, no
   pulse is lost or counted twice.
   */
  lemma {:induction false} Conservation(c: Counter, events: seq<Event>)
    requires NoWrap(c, events)
    ensures Sum(Run(c, events).drained) + Run(c, events).counter.pulses
         == c.pulses + EdgeCount(events)
    decreases |events|
  {
    if events != [] {
      match events[0]
      case Pulse => Conservation(Edge(c), events[1..]);
      case Read => Conservation(Cleared, events[1..]);
    }
  }
}

=== FILE: meter.dfy ===
/**
 The metering loop: boot (load the stored total), then once per second the
 reset-button check, the sample-interval clamp, the drain of the pulse
 counter, the accumulation and save of the total, the flow rate in liters
 per day, and the RGB LED indicator driven by that rate.

 Clocks, the button level and the NVS call results are inputs of each
 cycle; pulses reach the counter between cycles through `FlowSensor.AddEdges`.
 */
module Meter {
  import FlowSensor
  import Storage

  // ---------------------------------------------------------------------
  // LED indicator (`update_led`)
  // ---------------------------------------------------------------------

  /** A GPIO output level. */
  type Bit = b: int | 0 <= b <= 1

  /**
   Levels driven on the red, green and blue LED pins. The model speaks of
   pin levels only, not of which channels of the LED are lit.
   */
  datatype Rgb = Rgb(red: Bit, green: Bit, blue: Bit)

  /** `led_state`, `last_led_toggle` (microseconds) and the pin levels last written. */
  datatype Led = Led(on: bool, lastToggle: int, pins: Rgb)

  /** The indicator at boot: blink state off, never toggled, pins low. */
  const LedAtBoot: Led := Led(false, 0, Rgb(0, 0, 0))

  /** Minimum time between two toggles of the blinking red pin: 500 ms. */
  const BlinkIntervalUs: int := 500000

  /** Flow-rate thresholds in liters per day; each bucket includes its lower bound. */
  const HighRate: real := 5000.0
  const MediumRate: real := 3000.0
  const LowRate: real := 1000.0

  /** The four indicator buckets. */
  datatype Band = High | Medium | Low | Idle

  /** Reference classification of a rate into its bucket. */
  function Classify(rate: real): (b: Band)
    ensures b == High <==> rate >= HighRate
    ensures b == Medium <==> MediumRate <= rate < HighRate
    ensures b == Low <==> LowRate <= rate < MediumRate
    ensures b == Idle <==> rate < LowRate
  {
    if rate >= HighRate then High
    else if rate >= MediumRate then Medium
    else if rate >= LowRate then Low
    else Idle
  }

  /** The steady pin levels of a non-idle bucket: exactly one pin high (green, blue, red pin). */
  function SteadyPins(b: Band): (c: Rgb)
    requires b != Idle
    ensures c.red + c.green + c.blue == 1
  {
    match b
    case High => Rgb(0, 1, 0)
    case Medium => Rgb(0, 0, 1)
    case Low => Rgb(1, 0, 0)
  }

  /**
   `update_led`: steady pin levels for the three upper buckets; below the
   lowest threshold, the red pin toggles when more than 500 ms have passed
   since the last toggle, and nothing changes otherwise.
   */
  function UpdateLed(led: Led, rate: real, now: int): (led': Led)
    ensures Classify(rate) != Idle ==>
              led'.pins == SteadyPins(Classify(rate)) && led'.on == led.on && led'.lastToggle == led.lastToggle
    ensures Classify(rate) == Idle && now - led.lastToggle > BlinkIntervalUs ==>
              led'.on == !led.on && led'.lastToggle == now
              && led'.pins == Rgb(if led'.on then 1 else 0, 0, 0)
    ensures Classify(rate) == Idle && now - led.lastToggle <= BlinkIntervalUs ==> led' == led
  {
    if rate >= HighRate then led.(pins := Rgb(0, 1, 0))
    else if rate >= MediumRate then led.(pins := Rgb(0, 0, 1))
    else if rate >= LowRate then led.(pins := Rgb(1, 0, 0))
    else if now - led.lastToggle > BlinkIntervalUs then
      var on := !led.on;
      Led(on, now, Rgb(if on then 1 else 0, 0, 0))
    else led
  }

  /** The thresholds themselves select the upper bucket; just below the lowest one the red pin blinks. */
  lemma ThresholdBoundaries(led: Led, now: int)
    ensures UpdateLed(led, 5000.0, now).pins == Rgb(0, 1, 0)
    ensures UpdateLed(led, 4999.999, now).pins == Rgb(0, 0, 1)
    ensures UpdateLed(led, 3000.0, now).pins == Rgb(0, 0, 1)
    ensures UpdateLed(led, 2999.999, now).pins == Rgb(1, 0, 0)
    ensures UpdateLed(led, 1000.0, now).pins == Rgb(1, 0, 0)
    ensures UpdateLed(led, 999.999, now) == UpdateLed(led, 0.0, now)
  {
  }

  /**
   Blinking: at a low rate, two toggles more than 500 ms apart bring
   `led_state` back to its earlier value and drive the red pin (alone) to
   that level, whatever pattern a steady bucket left on the pins.
   */
  lemma BlinkReturns(led: Led, rate: real, t1: int, t2: int)
    requires rate < LowRate
    requires t1 - led.lastToggle > BlinkIntervalUs && t2 - t1 > BlinkIntervalUs
    ensures UpdateLed(UpdateLed(led, rate, t1), rate, t2).on == led.on
    ensures UpdateLed(UpdateLed(led, rate, t1), rate, t2).lastToggle == t2
    ensures UpdateLed(UpdateLed(led, rate, t1), rate, t2).pins == Rgb(if led.on then 1 else 0, 0, 0)
  {
  }

  // ---------------------------------------------------------------------
  // One cycle of the 1 Hz loop
  // ---------------------------------------------------------------------

  /** The loop's state: the total in liters, `last_time`, the counter, the store and the LED. */
  datatype State = State(
    total: real, lastTime: int, counter: FlowSensor.Counter, store: Storage.Store, led: Led)

  /**
   What one cycle reads from the outside: the reset button level (0 means
   pressed), the loop's timestamp, the timestamp `update_led` reads, and the
   results of the NVS calls of the reset and of the save.
   */
  datatype Inputs = Inputs(
    button: Bit, now: int, ledNow: int,
    resetSet: Storage.EspErr, resetCommit: Storage.EspErr,
    saveSet: Storage.EspErr, saveCommit: Storage.EspErr)

  /** Microseconds per second. */
  const UsPerSecond: real := 1000000.0

  /** The sample interval in seconds, replaced by 1.0 when the clock did not advance. */
  function SampleInterval(lastTime: int, now: int): (dt: real)
    ensures dt > 0.0
    ensures now > lastTime ==> dt * UsPerSecond == (now - lastTime) as real
    ensures now <= lastTime ==> dt == 1.0
  {
    var measured := (now - lastTime) as real / UsPerSecond;
    if measured <= 0.0 then 1.0 else measured
  }

  /** Seconds per day: the factor from liters per second to liters per day. */
  const SecondsPerDay: real := 86400.0

  /** The flow rate in liters per day: liters per minute, times 60 minutes, times 24 hours. */
  function RateLitersPerDay(liters: real, interval: real): (rate: real)
    requires interval > 0.0
    ensures rate * interval == liters * SecondsPerDay
    ensures liters >= 0.0 ==> rate >= 0.0
  {
    var perMinute := (liters / interval) * 60.0;
    perMinute * 60.0 * 24.0
  }

  /** One liter over one second is 86400 liters per day. */
  lemma OneLiterPerSecond()
    ensures RateLitersPerDay(1.0, 1.0) == 86400.0
  {
  }

  /** The result of one cycle: the next state and the values it derived. */
  datatype Cycle = Cycle(next: State, interval: real, increment: real, rate: real)

  /** The total after the reset check: zero when the button is held down. */
  function TotalAfterButton(m: State, x: Inputs): real
  {
    if x.button == 0 then 0.0 else m.total
  }

  /**
   The store after the reset check: untouched unless the button is held and
   the reset's set succeeds; the reset's commit result decides whether the
   zero is committed.
   */
  function StoreAfterButton(m: State, x: Inputs): (s: Storage.Store)
    ensures s.ready == m.store.ready
    ensures x.button != 0 || !m.store.ready || x.resetSet != Storage.EspOk ==> s == m.store
    ensures x.button == 0 && m.store.ready && x.resetSet == Storage.EspOk ==> Storage.Holds(s, 0.0)
    ensures x.button == 0 && x.resetCommit != Storage.EspOk ==> s.flash.committed == m.store.flash.committed
    ensures x.button == 0 && m.store.ready && x.resetSet == Storage.EspOk && x.resetCommit == Storage.EspOk ==>
              s.flash.committed == s.flash.written
  {
    if x.button == 0 then Storage.Reset(m.store, x.resetSet, x.resetCommit) else m.store
  }

  /** The body of the 1 Hz loop. */
  function Step(m: State, x: Inputs): (c: Cycle)
    // the interval measured from the clock, clamped, with `last_time` advanced to `now`
    ensures c.next.lastTime == x.now
    ensures c.interval == SampleInterval(m.lastTime, x.now)
    ensures c.interval > 0.0
    // the drain takes every pending pulse, converted to liters, and clears the counter
    ensures c.increment >= 0.0
    ensures c.increment * FlowSensor.PulsesPerLiter == m.counter.pulses as real
    ensures c.next.counter == FlowSensor.Cleared
    // accumulation, after the reset check
    ensures c.next.total == TotalAfterButton(m, x) + c.increment
    ensures x.button == 0 ==> c.next.total == c.increment
    ensures x.button != 0 ==> c.next.total >= m.total
    // the rate
    ensures c.rate == RateLitersPerDay(c.increment, c.interval)
    ensures c.rate >= 0.0
    ensures c.rate * c.interval == c.increment * SecondsPerDay
    // the save of exactly the new total
    ensures c.next.store.ready == m.store.ready
    ensures m.store.ready && x.saveSet == Storage.EspOk ==> Storage.Holds(c.next.store, c.next.total)
    ensures m.store.ready && x.saveSet == Storage.EspOk && x.saveCommit == Storage.EspOk ==>
              c.next.store.flash.committed == c.next.store.flash.written
    ensures !m.store.ready ==> c.next.store == m.store
    // a failed set leaves the store as the reset check left it; a failed commit commits nothing new
    ensures x.saveSet != Storage.EspOk ==> c.next.store == StoreAfterButton(m, x)
    ensures x.saveCommit != Storage.EspOk ==>
              c.next.store.flash.committed == StoreAfterButton(m, x).flash.committed
    // the indicator follows this cycle's rate
    ensures c.next.led == UpdateLed(m.led, c.rate, x.ledNow)
  {
    var store := StoreAfterButton(m, x);
    var total := TotalAfterButton(m, x);
    var interval := SampleInterval(m.lastTime, x.now);
    var inc := FlowSensor.GetIncrement(m.counter, interval);
    var newTotal := total + inc.liters;
    var saved := Storage.Save(store, newTotal, x.saveSet, x.saveCommit);
    var rate := RateLitersPerDay(inc.liters, interval);
    Cycle(State(newTotal, x.now, inc.counter, saved, UpdateLed(m.led, rate, x.ledNow)),
          interval, inc.liters, rate)
  }

  /** The liters of a cycle are exactly the conversion of the pulses pending before it. */
  lemma StepIncrementIsPendingPulses(m: State, x: Inputs)
    ensures Step(m, x).increment == FlowSensor.PulsesToLiters(m.counter.pulses)
  {
    var c := Step(m, x);
    var p := FlowSensor.PulsesToLiters(m.counter.pulses);
    assert c.increment * 450.0 == p * 450.0;
  }

  /**
   A reset cycle zeroes the stored value even when the following save
   fails: with a ready store and a successful reset set, the store holds
   0.0 or the new total, which is this cycle's increment.
   */
  lemma ResetCycle(m: State, x: Inputs)
    requires m.store.ready && x.button == 0 && x.resetSet == Storage.EspOk
    ensures Step(m, x).next.total == Step(m, x).increment
    ensures x.saveSet != Storage.EspOk ==> Storage.Holds(Step(m, x).next.store, 0.0)
    ensures x.saveSet == Storage.EspOk ==> Storage.Holds(Step(m, x).next.store, Step(m, x).increment)
  {
  }

  /**
   A reset cycle whose save's set fails: the reset's own NVS results decide
   the store. A failed reset set leaves it as it was, a failed reset commit
   leaves the committed contents as they were, and a fully successful reset
   commits its zero.
   */
  lemma ResetCycleFailures(m: State, x: Inputs)
    requires m.store.ready && x.button == 0 && x.saveSet != Storage.EspOk
    ensures x.resetSet != Storage.EspOk ==> Step(m, x).next.store == m.store
    ensures x.resetCommit != Storage.EspOk ==>
              Step(m, x).next.store.flash.committed == m.store.flash.committed
    ensures x.resetSet == Storage.EspOk && x.resetCommit == Storage.EspOk ==>
              Step(m, x).next.store.flash.committed == Step(m, x).next.store.flash.written
              && Storage.Holds(Step(m, x).next.store, 0.0)
  {
  }

  // ---------------------------------------------------------------------
  // Boot
  // ---------------------------------------------------------------------

  /**
   `app_main` up to the loop: initialise the store on the partition a power
   cycle left, load the total, read the clock; the counter starts cleared.
   */
  function Boot(flash: Storage.Flash, persisted: set<string>, env: Storage.InitOutcomes,
                get: Storage.EspErr, t0: int): (m: State)
    ensures m.lastTime == t0 && m.counter == FlowSensor.Cleared && m.led == LedAtBoot
    ensures m.store.ready <==> Storage.FlashUp(env) && env.open == Storage.EspOk
    ensures !m.store.ready ==> m.total == 0.0
    ensures m.total != 0.0 ==> Storage.Holds(m.store, m.total)
    // a failed read, or an erased partition, boots from zero
    ensures get != Storage.EspOk ==> m.total == 0.0
    ensures Storage.NeedsErase(env.flashInit) ==> m.total == 0.0
    // a clean boot loads the well-formed value the power cycle left
    ensures get == Storage.EspOk && env.flashInit == Storage.EspOk && env.open == Storage.EspOk
            && Storage.Key in Storage.Surviving(flash, persisted)
            && Storage.Surviving(flash, persisted)[Storage.Key].size == Storage.FloatSize ==>
              m.total == Storage.Surviving(flash, persisted)[Storage.Key].liters
  {
    var store := Storage.Init(Storage.PowerOn(flash, persisted), env);
    State(Storage.Load(store, get), t0, FlowSensor.Cleared, store, LedAtBoot)
  }

  /**
   Durability: the total of a cycle whose save fully succeeded is the
   total the meter boots with after a power loss, when the flash comes up
   cleanly, whichever uncommitted writes reached the medium.
   */
  lemma BootResumesSavedTotal(m: State, x: Inputs, persisted: set<string>, handle: nat, t0: int)
    requires m.store.ready && x.saveSet == Storage.EspOk && x.saveCommit == Storage.EspOk
    ensures Boot(Step(m, x).next.store.flash, persisted, Storage.HealthyInit(handle), Storage.EspOk, t0).total
         == Step(m, x).next.total
  {
    var c := Step(m, x);
    assert Storage.Holds(c.next.store, c.next.total);
    var store := Storage.Init(Storage.PowerOn(c.next.store.flash, persisted), Storage.HealthyInit(handle));
    assert store.ready && store.flash.written == c.next.store.flash.committed;
    assert Storage.Holds(store, c.next.total);
  }

  // ---------------------------------------------------------------------
  // Many cycles
  // ---------------------------------------------------------------------

  /** One loop iteration: `edges` sensor pulses arrive, then the cycle runs. */
  datatype Tick = Tick(edges: nat, inputs: Inputs)

  /**
   The `while (1)` loop: the state after a sequence of iterations. After at
   least one iteration the counter is clear and `last_time` is the last
   cycle's timestamp; no iteration changes whether the store is ready.
   */
  function Loop(m: State, ticks: seq<Tick>): (r: State)
    ensures ticks == [] ==> r == m
    ensures ticks != [] ==> r.counter == FlowSensor.Cleared && r.lastTime == ticks[|ticks| - 1].inputs.now
    ensures r.store.ready == m.store.ready
    decreases |ticks|
  {
    if ticks == [] then m
    else
      var arrived := m.(counter := FlowSensor.AddEdges(m.counter, ticks[0].edges));
      Loop(Step(arrived, ticks[0].inputs).next, ticks[1..])
  }

  /** Edges over a sequence of iterations. */
  function TotalEdges(ticks: seq<Tick>): nat
    decreases |ticks|
  {
    if ticks == [] then 0 else ticks[0].edges + TotalEdges(ticks[1..])
  }

  /** The button is never pressed. */
  predicate NoReset(ticks: seq<Tick>)
  {
    forall i :: 0 <= i < |ticks| ==> ticks[i].inputs.button != 0
  }

  /** No counter overflow: the pulses pending at any cycle stay below 2^32. */
  predicate NoOverflow(pending: nat, ticks: seq<Tick>)
  {
    forall i :: 0 <= i < |ticks| ==> (if i == 0 then pending else 0) + ticks[i].edges < FlowSensor.Modulus
  }

  /** Between resets the total never decreases. */
  lemma {:induction false} TotalNeverDecreases(m: State, ticks: seq<Tick>)
    requires NoReset(ticks)
    ensures Loop(m, ticks).total >= m.total
    decreases |ticks|
  {
    if ticks != [] {
      var arrived := m.(counter := FlowSensor.AddEdges(m.counter, ticks[0].edges));
      var next := Step(arrived, ticks[0].inputs).next;
      assert NoReset(ticks[1..]) by {
        forall i | 0 <= i < |ticks[1..]| ensures ticks[1..][i].inputs.button != 0 {
          assert ticks[1..][i] == ticks[i + 1];
        }
      }
      TotalNeverDecreases(next, ticks[1..]);
    }
  }

  /**
   No pulse is lost across cycles: between resets and without counter
   overflow, the total plus the liters still pending equals the starting
   total plus the liters of every pulse pending or arrived since.
   */
  lemma {:induction false} NoLoss(m: State, ticks: seq<Tick>)
    requires NoReset(ticks)
    requires NoOverflow(m.counter.pulses, ticks)
    ensures Loop(m, ticks).total + FlowSensor.PulsesToLiters(Loop(m, ticks).counter.pulses)
         == m.total + FlowSensor.PulsesToLiters(m.counter.pulses + TotalEdges(ticks))
    decreases |ticks|
  {
    if ticks != [] {
      var e := ticks[0].edges;
      var arrived := m.(counter := FlowSensor.AddEdges(m.counter, e));
      assert arrived.counter.pulses == m.counter.pulses + e;
      var next := Step(arrived, ticks[0].inputs).next;
      StepIncrementIsPendingPulses(arrived, ticks[0].inputs);
      assert next.total == m.total + FlowSensor.PulsesToLiters(m.counter.pulses + e);
      var rest := ticks[1..];
      assert NoReset(rest) by {
        forall i | 0 <= i < |rest| ensures rest[i].inputs.button != 0 {
          assert rest[i] == ticks[i + 1];
        }
      }
      assert NoOverflow(next.counter.pulses, rest) by {
        forall i | 0 <= i < |rest|
          ensures (if i == 0 then next.counter.pulses else 0) + rest[i].edges < FlowSensor.Modulus
        {
          assert rest[i] == ticks[i + 1];
        }
      }
      NoLoss(next, rest);
      FlowSensor.LitersAdditive(m.counter.pulses + e, TotalEdges(rest));
    }
  }
}

=== FILE: storage.dfy ===
/**
 The durable counter store: a `nvs_ready` flag and a handle over an
 abstract non-volatile key/value store (NVS) that holds the hidrometer
 reading as a fixed-width blob under the key "hidrometro".

 Every NVS call is fallible. Each operation takes, as a parameter, the
 `EspErr` the call returns; `EspOk` means the flash medium behaved, and
 the result then follows from the store's contents.
 */
module Storage {

  /** The `esp_err_t` codes the store distinguishes. */
  datatype EspErr = EspOk | NoFreePages | NewVersionFound | NotFound | OtherError

  /** The one key the store uses. */
  const Key: string := "hidrometro"

  /** `sizeof(float)`: the width of a well-formed stored value. */
  const FloatSize: nat := 4

  /** A stored blob: its byte size and, when well formed, the liters it encodes. */
  datatype Blob = Blob(size: nat, liters: real)

  /**
   The abstract NVS partition. `written` is what reads see; `committed` is
   what a successful commit guarantees to survive a power loss. A commit
   makes the two agree. A write not yet committed may or may not survive.
   */
  datatype Flash = Flash(written: map<string, Blob>, committed: map<string, Blob>)

  /** An erased partition. */
  const Blank: Flash := Flash(map[], map[])

  /** The module's state: `nvs_ready`, `storage_nvs_handle` and the partition. */
  datatype Store = Store(ready: bool, handle: nat, flash: Flash)

  /**
   What a power cycle leaves on the medium: the committed entries, except
   that each key in `persisted` whose uncommitted write had already reached
   the medium keeps that written value.
   */
  function Surviving(flash: Flash, persisted: set<string>): (m: map<string, Blob>)
    ensures forall k :: k in persisted && k in flash.written ==> k in m && m[k] == flash.written[k]
    ensures forall k :: k !in persisted && k in flash.committed ==> k in m && m[k] == flash.committed[k]
    ensures forall k :: k in m ==> k in flash.committed || (k in persisted && k in flash.written)
  {
    map k | k in flash.committed.Keys + (flash.written.Keys * persisted) ::
      if k in persisted && k in flash.written then flash.written[k] else flash.committed[k]
  }

  /** The store right after power-up, before `storage_init`, on a partition left by a power cycle. */
  function PowerOn(flash: Flash, persisted: set<string>): (s: Store)
    ensures !s.ready && s.handle == 0
    ensures s.flash.written == s.flash.committed
    ensures persisted == {} ==> s.flash.written == flash.committed
    ensures flash.written == flash.committed ==> s.flash.written == flash.committed
  {
    var m := Surviving(flash, persisted);
    Store(false, 0, Flash(m, m))
  }

  /** A power cycle: RAM state is lost, and so are the uncommitted writes outside `persisted`. */
  function Restart(s: Store, persisted: set<string>): Store
  {
    PowerOn(s.flash, persisted)
  }

  /** Outcomes of the NVS calls `storage_init` may make, and the handle `nvs_open` yields. */
  datatype InitOutcomes = InitOutcomes(
    flashInit: EspErr, erase: EspErr, flashReinit: EspErr, open: EspErr, handle: nat)

  /** The two first-init results that call for erasing the partition. */
  predicate NeedsErase(e: EspErr)
  {
    e == NoFreePages || e == NewVersionFound
  }

  /** Whether the flash layer ends up initialised, after the erase-and-retry path if taken. */
  predicate FlashUp(env: InitOutcomes)
  {
    if NeedsErase(env.flashInit) then env.erase == EspOk && env.flashReinit == EspOk
    else env.flashInit == EspOk
  }

  /** `storage_init`. */
  function Init(s: Store, env: InitOutcomes): (s': Store)
    // erase failure: return before anything else happens
    ensures NeedsErase(env.flashInit) && env.erase != EspOk ==> s' == s
    // a successful erase leaves a blank partition, whatever follows
    ensures NeedsErase(env.flashInit) && env.erase == EspOk ==> s'.flash == Blank
    ensures !NeedsErase(env.flashInit) ==> s'.flash == s.flash
    // the store becomes ready exactly through flash init and open both succeeding
    ensures s'.ready && !s.ready ==> FlashUp(env) && env.open == EspOk
    ensures FlashUp(env) && env.open == EspOk ==> s'.ready && s'.handle == env.handle
    // an open failure clears the flag
    ensures FlashUp(env) && env.open != EspOk ==> !s'.ready
    // a flash init failure returns without touching flag or handle
    ensures !FlashUp(env) ==> s'.ready == s.ready && s'.handle == s.handle
  {
    if NeedsErase(env.flashInit) && env.erase != EspOk then s
    else
      var erased := if NeedsErase(env.flashInit) then s.(flash := Blank) else s;
      var result := if NeedsErase(env.flashInit) then env.flashReinit else env.flashInit;
      if result != EspOk then erased
      else if env.open != EspOk then erased.(ready := false)
      else erased.(ready := true, handle := env.handle)
  }

  /**
   From power-on, the store becomes ready exactly when the flash layer comes
   up (after the erase-and-retry path if taken) and the namespace opens;
   any failing call leaves it not ready.
   */
  lemma InitFromPowerOn(flash: Flash, persisted: set<string>, env: InitOutcomes)
    ensures Init(PowerOn(flash, persisted), env).ready <==> FlashUp(env) && env.open == EspOk
    ensures NeedsErase(env.flashInit) && env.erase != EspOk ==>
              Init(PowerOn(flash, persisted), env) == PowerOn(flash, persisted)
  {
  }

  /** `storage_deinit`: close the handle when ready, otherwise nothing. */
  function Deinit(s: Store): (s': Store)
    ensures !s'.ready
    ensures s'.flash == s.flash
    ensures s.ready ==> s'.handle == 0
    ensures !s.ready ==> s' == s
  {
    if s.ready then s.(ready := false, handle := 0) else s
  }

  /** Deinit twice is deinit once. */
  lemma DeinitIdempotent(s: Store)
    ensures Deinit(Deinit(s)) == Deinit(s)
  {
  }

  /** What `nvs_get_blob` reports. */
  datatype GetResult = Found(blob: Blob) | Failed(err: EspErr)

  /** `nvs_get_blob`: the code of a faulty call, otherwise a lookup of the written contents. */
  function GetBlob(flash: Flash, key: string, outcome: EspErr): (r: GetResult)
    ensures r.Found? <==> outcome == EspOk && key in flash.written
    ensures r.Found? ==> r.blob == flash.written[key]
    ensures r.Failed? ==> r.err != EspOk
  {
    if outcome != EspOk then Failed(outcome)
    else if key in flash.written then Found(flash.written[key])
    else Failed(NotFound)
  }

  /** The store holds a well-formed hidrometer value that a healthy read returns. */
  predicate Holds(s: Store, liters: real)
  {
    Key in s.flash.written && s.flash.written[Key] == Blob(FloatSize, liters)
  }

  /**
   `storage_load_hidrometer`: the stored value when ready, the read succeeds
   and the blob has the width of a float; 0.0 when not ready, when the key
   is missing, when the size is wrong and on any other error.
   */
  function Load(s: Store, get: EspErr): (liters: real)
    ensures !s.ready ==> liters == 0.0
    ensures (s.ready && get == EspOk && Key in s.flash.written
             && s.flash.written[Key].size == FloatSize) ==> Holds(s, liters)
    ensures liters != 0.0 ==> s.ready && get == EspOk && Holds(s, liters)
  {
    if !s.ready then 0.0
    else match GetBlob(s.flash, Key, get)
      case Found(blob) => if blob.size != FloatSize then 0.0 else blob.liters
      case Failed(NotFound) => 0.0
      case Failed(_) => 0.0
  }

  /** Every default path of the load returns 0.0: missing key, wrong size, failing read. */
  lemma LoadDefaults(s: Store, get: EspErr)
    requires s.ready
    ensures get == EspOk && Key !in s.flash.written ==> Load(s, get) == 0.0
    ensures get == EspOk && Key in s.flash.written && s.flash.written[Key].size != FloatSize ==> Load(s, get) == 0.0
    ensures get != EspOk ==> Load(s, get) == 0.0
  {
  }

  /** `nvs_set_blob` of a float under the key. */
  function SetBlob(flash: Flash, liters: real): (f: Flash)
    ensures f.written.Keys == flash.written.Keys + {Key}
    ensures f.written[Key] == Blob(FloatSize, liters)
    ensures forall k :: k in flash.written && k != Key ==> f.written[k] == flash.written[k]
    ensures f.committed == flash.committed
  {
    flash.(written := flash.written[Key := Blob(FloatSize, liters)])
  }

  /** `nvs_commit`: make the written contents durable. */
  function Commit(flash: Flash): (f: Flash)
    ensures f.written == flash.written && f.committed == flash.written
  {
    flash.(committed := flash.written)
  }

  /** Set then commit, stopping at the first failing call. */
  function SetAndCommit(s: Store, liters: real, setResult: EspErr, commitResult: EspErr): Store
  {
    if setResult != EspOk then s
    else
      var written := SetBlob(s.flash, liters);
      if commitResult != EspOk then s.(flash := written) else s.(flash := Commit(written))
  }

  /** `storage_save_hidrometer`. */
  function Save(s: Store, liters: real, setResult: EspErr, commitResult: EspErr): (s': Store)
    ensures s'.ready == s.ready && s'.handle == s.handle
    // no-op when not ready; a failed set means no commit is attempted
    ensures !s.ready || setResult != EspOk ==> s' == s
    ensures s.ready && setResult == EspOk ==> Holds(s', liters)
    ensures s.ready && setResult == EspOk && commitResult == EspOk ==> s'.flash.committed == s'.flash.written
    ensures commitResult != EspOk ==> s'.flash.committed == s.flash.committed
  {
    if !s.ready then s else SetAndCommit(s, liters, setResult, commitResult)
  }

  /** `storage_reset_hidrometer`. */
  function Reset(s: Store, setResult: EspErr, commitResult: EspErr): (s': Store)
    ensures s'.ready == s.ready && s'.handle == s.handle
    ensures !s.ready || setResult != EspOk ==> s' == s
    ensures s.ready && setResult == EspOk ==> Holds(s', 0.0)
    ensures s.ready && setResult == EspOk && commitResult == EspOk ==> s'.flash.committed == s'.flash.written
    ensures commitResult != EspOk ==> s'.flash.committed == s.flash.committed
  {
    if !s.ready then s else SetAndCommit(s, 0.0, setResult, commitResult)
  }

  /** Reset has the same effect on the store as saving 0.0. */
  lemma ResetIsSaveZero(s: Store, setResult: EspErr, commitResult: EspErr)
    ensures Reset(s, setResult, commitResult) == Save(s, 0.0, setResult, commitResult)
  {
  }

  /** Saving the same value twice is saving it once, when both calls succeed. */
  lemma SaveIdempotent(s: Store, liters: real)
    ensures Save(Save(s, liters, EspOk, EspOk), liters, EspOk, EspOk)
         == Save(s, liters, EspOk, EspOk)
  {
  }

  /** Round trip: after a save whose set succeeds, a healthy load in the same session returns the value. */
  lemma SaveLoadRoundTrip(s: Store, liters: real, commitResult: EspErr)
    requires s.ready
    ensures Load(Save(s, liters, EspOk, commitResult), EspOk) == liters
  {
  }

  /** Initialising with every call succeeding and no erase needed. */
  function HealthyInit(handle: nat): InitOutcomes
  {
    InitOutcomes(EspOk, EspOk, EspOk, EspOk, handle)
  }

  /**
   Durability: a value saved with a successful set and commit is what the
   next boot loads, after a power loss, when the flash comes up cleanly,
   whichever uncommitted writes reached the medium.
   */
  lemma SaveSurvivesRestart(s: Store, liters: real, handle: nat, persisted: set<string>)
    requires s.ready
    ensures Load(Init(Restart(Save(s, liters, EspOk, EspOk), persisted), HealthyInit(handle)), EspOk) == liters
  {
    var saved := Save(s, liters, EspOk, EspOk);
    assert Holds(saved, liters);
    var booted := Init(Restart(saved, persisted), HealthyInit(handle));
    assert booted.ready && booted.flash == Restart(saved, persisted).flash;
    assert Holds(booted, liters);
  }

  /**
   A save whose set succeeded but whose commit failed: after a power loss
   the key holds either the new value, when that write reached the medium,
   or exactly what it would have held without the save.
   */
  lemma FailedCommitRestartsOldOrNew(s: Store, liters: real, commitResult: EspErr, persisted: set<string>)
    requires s.ready && commitResult != EspOk
    ensures Key in persisted ==> Holds(Restart(Save(s, liters, EspOk, commitResult), persisted), liters)
    ensures Key !in persisted ==>
              Restart(Save(s, liters, EspOk, commitResult), persisted) == Restart(s, persisted)
  {
    var saved := Save(s, liters, EspOk, commitResult);
    if Key !in persisted {
      var a := Surviving(saved.flash, persisted);
      var b := Surviving(s.flash, persisted);
      assert a.Keys == b.Keys;
      assert forall k :: k in a ==> a[k] == b[k];
      assert a == b;
    }
  }
}
